=== FILE: README.md ===
# TimeSync client — a Dafny model of the adaptive time-sync engine

`TimeSync` is an Arduino/ESP32 client that keeps the board's millisecond
counter (`millis()`) mapped to wall-clock epoch time. It sends a small "TSP"
request over UDP to a time server and matches the response against a cookie.
It rejects samples whose round trip is too long. From an accepted sample it
estimates the epoch time at which the counter read zero, assuming the server
stamped its time halfway through the round trip. It also adapts both the
interval between requests and the round-trip limit to how fresh and how clean
the last sample was.

This project models that engine as pure functions over an immutable state
record. The lwIP socket and FreeRTOS plumbing are removed:

| module | file | what it models |
|---|---|---|
| `Ints` | ints.dfy | 32/64-bit unsigned and 64-bit signed integers with explicit wrap-around |
| `Bytes` | bytes.dfy | little-endian layout of a `uint64_t` written through a pointer cast |
| `Config` | config.dfy | the four tuning parameters, their defaults, `updateConfiguration` |
| `Wire` | wire.dfy | the 16-byte request and the response decoder (`handlePbufOnLwipContext`) |
| `Controller` | controller.dfy | `updateLimits`: recency and round-trip factors, next interval and limit |
| `Engine` | engine.dfy | the client state, `handleTspResponseData`, `sendTspPacket`, accessors |
| `Inbox` | inbox.dfy | the four-entry queue between the receive context and `loop` |
| `Driver` | driver.dfy | `loop` (drain, then send decision) and whole-client traces |

Machine integers are subsets of `int`: `u32`, `u64` and `i64`. `unsigned int`
and `unsigned long` are both 32 bits on the ESP32. Every wrapping operation of
the source is written out. This covers the round trip `recv - send`, the stamp
time `recv - rtt/2`, the difference of the send bounds and the sum that uses
it, the 64-bit difference `epoch - stamp`, and that difference reinterpreted as
`int64_t`. The clock readings taken by `millis()` are parameters: `now` and
`sendTime` in `Loop` (the loop's own reading and the later one taken by
`sendTspPacket`), and `recvTime` in the decoder.

## Model

| member | source | states |
|---|---|---|
| Ints.Sub32 | src/TimeSync.cpp:158 | the 32-bit round trip is the value that, added to the send time with wrap-around, gives the receive time; it equals the plain difference when no wrap occurred |
| Ints.Sub32Unique | src/TimeSync.cpp:158 | that value is unique among 32-bit values |
| Ints.RoundTripAcrossWrap | src/TimeSync.cpp:158 | receive time 5 after send time 4294967290 is a round trip of 11 |
| Ints.ToSigned64 | src/TimeSync.cpp:179 | storing a `uint64_t` into `int64_t` keeps the value modulo 2^64, unchanged below 2^63 and negative above |
| Bytes.DecodeEncode | src/TimeSync.cpp:41 | decoding the little-endian bytes written for a value gives the value back |
| Bytes.EncodeDecode | src/TimeSync.cpp:285-286 | re-encoding a decoded field reproduces its bytes |
| Bytes.LeDecode64 | src/TimeSync.cpp:285-286 | an 8-byte field read as `uint64_t` is the value whose encoding is exactly those bytes |
| Bytes.LeEncode64 | src/TimeSync.cpp:41 | a `uint64_t` written into the buffer takes 8 bytes that read back as the same value |
| Config.DefaultConfig | src/TimeSync.hpp:90-113 | defaults are round trip 15 ms, update period 600000 ms, min send 500 ms, max send 120000 ms, and min <= max |
| Config.UpdateConfiguration | src/TimeSync.cpp:243-254 | a nonzero argument is stored unchanged; a zero one falls back to 15, 600000, 500 and (as written) 15 for the maximum send interval |
| Config.UpdateConfigurationFixpoint | src/TimeSync.cpp:250-253 | passing a stored configuration back in changes nothing |
| Config.AllZeroArgumentsInvertSendBounds | src/TimeSync.cpp:253 | all-zero arguments do not give the defaults, and leave the minimum send interval above the maximum |
| Wire.EncodeRequest | src/TimeSync.cpp:23-41 | the request is 16 bytes: 'T','S','P', version 1, four zero bytes, then 8 bytes that decode to the cookie |
| Wire.DecodeResponse | src/TimeSync.cpp:256-286 | a datagram yields an event iff it has at least 24 bytes and starts with 'T','S','P'; the event carries the receive time, and the cookie and epoch whose encodings are bytes 8-15 and 16-23 |
| Wire.EchoedRequestDecodes | src/TimeSync.cpp:256-286 | a response made of the request's bytes followed by an epoch (and any trailer) decodes to that request's cookie and that epoch |
| Wire.DecodeInjectiveOnFields | src/TimeSync.cpp:285-286 | two accepted datagrams that decode to the same event agree on bytes 8-23 |
| Controller.RelQuality | src/TimeSync.cpp:105-113 | each quality factor (elapsed time over the update period, last round trip over the maximum round trip) lies in [0,1]; it is 1 exactly for a zero value and 0 exactly at or beyond the scale |
| Controller.CombinedFactor | src/TimeSync.cpp:121 | the combined factor lies in [0,1] and is at most each input; it is 0 iff either input is 0 and 1 iff both are 1 |
| Controller.ScaledFloor | src/TimeSync.cpp:131 | `(uint32_t)(x * c)` for a factor in [0,1] lies in [0, x], is 0 at factor 0 and x at factor 1 |
| Controller.LimitsForFactor | src/TimeSync.cpp:130-138 | factor 0 gives (min interval, max round trip) and factor 1 gives (max interval, 0), even with inverted bounds; the interval stays in [min, max] when min <= max; the limit never exceeds the max round trip |
| Controller.Factor | src/TimeSync.cpp:105-121 | the combined factor of a valid clock lies in [0,1] |
| Controller.UpdateLimits | src/TimeSync.cpp:79-138 | without a valid clock the outputs are pinned to (min interval, max round trip); otherwise the interval lies in [min, max] when min <= max and the limit in [0, max round trip] |
| Controller.StaleOrSlowForcesEagerLimits | src/TimeSync.cpp:105-138 | once a whole update period has passed, or if the last round trip reached the maximum, a valid clock still gets the eager outputs |
| Controller.FreshAndInstantRelaxesLimits | src/TimeSync.cpp:121-138 | right after a zero-round-trip update the interval is the maximum and the limit is 0 |
| Controller.LimitsForFactorMonotone | src/TimeSync.cpp:130-138 | a larger factor never shortens the interval nor raises the limit |
| Controller.RelQualityMonotone | src/TimeSync.cpp:105-106 | the recency factor never grows with elapsed time |
| Controller.StalenessNeverRelaxes | src/TimeSync.cpp:105-138 | for a fixed last round trip, more elapsed time never lengthens the interval nor lowers the limit |
| Controller.InvertedBoundsOvershoot | src/TimeSync.cpp:130-131 | with all-zero configuration arguments, factor 0.5 puts the next request more than 10^8 times the 15 ms maximum away (2147483905 ms in exact arithmetic) |
| Engine.NewTimeSync | src/TimeSync.hpp:115-133 | a new client has the default configuration, limit = max round trip, interval = min send time, zero send time, cookie, update time and round trip, an invalid clock and offset 0 |
| Engine.UpdateLimits | src/TimeSync.cpp:79-142 | only the two controller outputs change, and they become exactly `Controller.UpdateLimits` of the state's configuration, validity, last update time and last round trip at `currMillis`; before the first sample they are pinned; with ordered bounds they end up inside them |
| Engine.ServerStampLocalTime | src/TimeSync.cpp:174 | the assumed stamping instant lies half the round trip before the receive time, in 32-bit arithmetic |
| Engine.EstimateStartTime | src/TimeSync.cpp:179 | the offset plus the stamp time gives the server's epoch modulo 2^64, and gives it exactly iff the epoch is less than the stamp time plus 2^63, that is iff the true difference fits in `int64_t` (an epoch below the stamp time included) |
| Engine.HandleResponse | src/TimeSync.cpp:144-182 | a cookie mismatch changes nothing; a match always consumes the cookie; a round trip at or over the limit changes nothing else; otherwise the clock becomes valid with the new round trip, update time and offset, config and send time kept, and the limits are those `Controller.UpdateLimits` gives for a valid clock updated at the receive time with the new round trip, evaluated at the receive time; validity is never lost and bounds are kept |
| Engine.SendTspPacket | src/TimeSync.cpp:34-41 | a send stamps `now` as both send time and cookie, changes nothing else, and emits the 16-byte request for the recorded cookie, whose cookie bytes read back as that cookie |
| Engine.Configure | src/TimeSync.cpp:243-254 | only the configuration changes, to the fallback rule's result |
| Engine.Setup | src/TimeSync.cpp:189-219 | if the queue could not be created or the socket did not connect nothing changes; otherwise the state becomes exactly `Engine.UpdateLimits` at local time 0, so only the two limits change, pinned while the clock is invalid |
| Engine.GetCurrentEpochTimeMs | src/TimeSync.hpp:51 | the current epoch time exceeds the stored offset by exactly the local reading |
| Engine.DuplicateResponseIgnored | src/TimeSync.cpp:146-155 | handling the same nonzero-cookie response twice is the same as handling it once |
| Engine.ZeroCookieMatchesWhenIdle | src/TimeSync.cpp:146-155 | the "consumed" marker 0 still matches a response carrying cookie 0: such a datagram at local time 10 sets the clock of a new client |
| Engine.AcceptedSampleAnchorsClock | src/TimeSync.cpp:174-179 | after an accepted sample, the current epoch time at the assumed stamping instant equals the server's epoch whenever it fits in `int64_t`; this holds at the stamping reading even when the counter wrapped during the exchange |
| Engine.ReadingsAcrossWrap | src/TimeSync.hpp:51 | two readings are as far apart in epoch time as the 32-bit elapsed time when the counter did not wrap between them, and 2^32 ms less when it did |
| Engine.StraddlingExchangeLagsAfterWrap | src/TimeSync.cpp:158-179 | a 10 ms exchange sent at 2^32 - 8 and received at 2 is accepted and anchors the clock at the stamping reading, yet at the receive reading the clock is 2^32 - 5 ms behind the server's epoch |
| Engine.WorkedExample | src/TimeSync.cpp:158-179 | epoch 1000, sent at 80, received at 100 gives round trip 20, offset 910 and epoch 1110 at local time 200 |
| Engine.SlowSampleOnlyConsumesCookie | src/TimeSync.cpp:155-167 | with the default 15 ms limit that 20 ms sample only clears the cookie |
| Engine.EchoOfLatestRequestMatches | src/TimeSync.cpp:146-167 | an echo of the request just sent is matched and consumed; it sets the clock if it arrives within the limit and changes nothing else otherwise |
| Inbox.Enqueue | src/TimeSync.cpp:289-293 | a post appends when fewer than four events wait and is dropped when the queue is full; waiting events are never altered |
| Inbox.OnPacket | src/TimeSync.cpp:256-294 | a datagram failing validation leaves the queue unchanged; a valid one appends exactly `Wire.DecodeResponse`'s event when there is room; a full queue is left unchanged |
| Inbox.EnqueueAllKeepsOldest | src/TimeSync.cpp:189 | any burst leaves the oldest events in order, up to the capacity of 4 |
| Driver.Drain | src/TimeSync.cpp:222-229 | draining keeps config and send time, never invalidates the clock, keeps bounds, and changes nothing when no event carries the outstanding cookie |
| Driver.DrainTakesFirstMatchOnly | src/TimeSync.cpp:222-229 | in a batch only the first event matching the outstanding cookie takes effect, provided no later one carries cookie 0 |
| Driver.Loop | src/TimeSync.cpp:232-241 | after draining, a request is sent iff `now - lastSendTime` (32-bit) exceeds the drained state's interval; a send emits the request for `sendTime`, and the new state is the drained one with `sendTime` as send time and cookie and the limits `Controller.UpdateLimits` gives for the drained state at `now`, nothing else changed; without a send the state is just the drained one; the configuration is always kept |
| Driver.Step | src/TimeSync.cpp:222-294 | a received datagram leaves the state alone and the queue becomes `Inbox.OnPacket`'s result; a tick runs `loop` and empties the queue; a reconfiguration keeps the queue and installs `Engine.Configure`'s result |
| Driver.Run | src/TimeSync.cpp:222-241 | along any trace, a valid clock stays valid |
| Driver.DrainKeepsUnsyncedAtRest | src/TimeSync.hpp:125-133 | draining keeps the initial offset, update time and round trip while the clock is invalid |
| Driver.RunKeepsUnsyncedAtRest | src/TimeSync.hpp:125-133 | along any trace, an invalid clock keeps offset, update time and round trip at their initial zeros |
| Driver.OffsetZeroUntilSynced | src/TimeSync.hpp:130-133 | every client reachable from a new one reports offset 0 while its clock is invalid |
| Driver.ForeignDatagramIgnored | src/TimeSync.cpp:258-279 | a short or untagged datagram changes neither the queue nor the state |

`isTimeValid()` and `getEspStartTimeMs()` are `Engine.IsTimeValid` and
`Engine.GetEspStartTimeMs`. They are pure functions of the state, so they
cannot change it.

## Behaviour worth knowing

Some of the code's behaviour is easy to miss; the model follows the code in
each case:

- A zero `maxServerSendTimeMs` passed to `updateConfiguration` falls back to
  the round-trip default of 15 ms, not to the two-minute default
  (src/TimeSync.cpp:253). With default minimum 500 ms the send bounds come out
  inverted. The 32-bit difference `max - min` then wraps, and at factor 0.5 the
  controller waits about 24.8 days before the next request
  (`Config.AllZeroArgumentsInvertSendBounds`, `Controller.InvertedBoundsOvershoot`).
- The send interval stays in `[min, max]` only when `min <= max`. Nothing
  enforces that ordering.
- A matched response rejected for its round trip still changes the state: its
  cookie is consumed (src/TimeSync.cpp:155).
- The cookie value 0 means "consumed", but the match test does not exclude it.
  A response carrying cookie 0 is processed when nothing is outstanding
  (`Engine.ZeroCookieMatchesWhenIdle`). The duplicate-rejection guarantee
  therefore holds only for nonzero cookies.
- `updateConfiguration` does not recompute the limits. The current interval and
  limit stay until the next send or accepted sample.
- `getCurrentEpochTimeMs` adds the 32-bit counter reading to the offset, so
  the reported epoch is right only within one 2^32 ms period (about 49.7
  days) of the counter. Each wrap moves it back by 2^32 ms until the next
  accepted sample. An exchange that straddles a wrap anchors the clock at
  the pre-wrap stamping reading, so the clock lags from the receive reading
  onwards (`Engine.ReadingsAcrossWrap`, `Engine.StraddlingExchangeLagsAfterWrap`).
- When the queue is full, the newest event is dropped (`xQueueSend` with zero
  wait).

## Left out

- The repository's NTP client: it is a separate client with its own wire format and is not part of this model.
- lwIP calls (`udp_new`, `udp_connect`, `udp_send`, `pbuf_alloc`/`pbuf_free`, `tcpip_api_call`, `lwipSend`, `lwipConnect`): foreign network APIs. Send success or failure does not affect the state, so a send is modelled as emitting a datagram.
- The pbuf-chain walk of `lwipUdpRecvCallback`: each pbuf reaches the decoder as its own datagram, and the model starts at the decoder.
- FreeRTOS queue creation and cross-core synchronisation: the queue is a bounded sequence. The receive side only appends and `loop` drains it whole.
- `setup`'s address and socket handling: only its `updateLimits(0)` after the queue was created and the socket connected is modelled (`Engine.Setup`, whose `connected` flag stands for both steps succeeding).
- `millis()`: every clock reading is an explicit parameter, including the two separate readings of one `loop` pass.
- Debug `Serial` output and `print_uint64`.
- Controller.UpdateLimits: computes the factors over exact reals instead of IEEE single precision, so float rounding (including the precision loss of `(float)` on values above 2^24) is not modelled. Each `(uint32_t)` cast of a nonnegative float is `.Floor`.
- Direct writes to the configuration members, which are public (src/TimeSync.hpp:85-113): the model changes a configuration only through `updateConfiguration`, so no configuration field is ever zero and the division by zero a zero period or zero maximum round trip would cause in `updateLimits` is not modelled.
- Engine.GetCurrentEpochTimeMs: returns the exact sum; a sum outside `int64_t` is undefined behaviour in C++ and is not modelled.

=== FILE: bytes.dfy ===
/** Little-endian byte layout of integers, as the ESP32 (a little-endian
    core) stores a `uint64_t` through a pointer cast into a byte buffer. */
module Bytes {
  import opened Ints

  /** 256^n: the number of values an n-byte field can hold. */
  function Pow256(n: nat): (r: nat)
    ensures r > 0
  {
    if n == 0 then 1 else 256 * Pow256(n - 1)
  }

  /** The unsigned value of a little-endian byte sequence. */
  function LeDecode(bs: seq<u8>): (v: nat)
    ensures v < Pow256(|bs|)
  {
    if |bs| == 0 then 0 else bs[0] + 256 * LeDecode(bs[1..])
  }

  /** The n low-order bytes of `x`, least significant first. */
  function LeEncode(x: nat, n: nat): (bs: seq<u8>)
    ensures |bs| == n
  {
    if n == 0 then [] else [x % 256] + LeEncode(x / 256, n - 1)
  }

  lemma Pow256Eight()
    ensures Pow256(8) == TWO64
  {
  }

  /** Decoding an encoding gives back every value that fits in the field. */
  lemma {:induction false} DecodeEncode(x: nat, n: nat)
    requires x < Pow256(n)
    ensures LeDecode(LeEncode(x, n)) == x
  {
    if n > 0 {
      var bs := LeEncode(x, n);
      assert bs[1..] == LeEncode(x / 256, n - 1);
      DecodeEncode(x / 256, n - 1);
    }
  }

  /** Encoding a decoded field reproduces its bytes. */
  lemma {:induction false} EncodeDecode(bs: seq<u8>)
    ensures LeEncode(LeDecode(bs), |bs|) == bs
  {
    if |bs| > 0 {
      var v := LeDecode(bs);
      assert v % 256 == bs[0];
      assert v / 256 == LeDecode(bs[1..]);
      EncodeDecode(bs[1..]);
    }
  }

  /** An 8-byte field decodes to a `uint64_t`. */
  function LeDecode64(bs: seq<u8>): (v: u64)
    requires |bs| == 8
    ensures LeEncode(v, 8) == bs
  {
    Pow256Eight();
    EncodeDecode(bs);
    LeDecode(bs)
  }

  /** A `uint64_t` stored as 8 little-endian bytes. */
  function LeEncode64(x: u64): (bs: seq<u8>)
    ensures |bs| == 8
    ensures LeDecode64(bs) == x
  {
    Pow256Eight();
    DecodeEncode(x, 8);
    LeEncode(x, 8)
  }
}

=== FILE: config.dfy ===
/** The four tuning parameters of the synchronisation engine and the
    zero-means-default rule of `updateConfiguration`. */
module Config {
  import opened Ints

  const DefaultMaxAllowedRoundTripMs: PosU32 := 15
  const DefaultDesirableUpdateFreqMs: PosU32 := 1000 * 60 * 10
  const DefaultMinServerSendTimeMs: PosU32 := 500
  const DefaultMaxServerSendTimeMs: PosU32 := 1000 * 60 * 2

  /** In the model every field is nonzero: the defaults are, and
      `UpdateConfiguration`, the only way the model changes a configuration,
      replaces each zero argument by a default. */
  datatype Config = Config(
    maxAllowedRoundTripMs: PosU32,
    desirableUpdateFreqMs: PosU32,
    minServerSendTimeMs: PosU32,
    maxServerSendTimeMs: PosU32)
  {
    /** The ordering the controller's linear interpolation assumes. */
    predicate Ordered() {
      minServerSendTimeMs <= maxServerSendTimeMs
    }
  }

  /** The values a freshly constructed client starts with. */
  function DefaultConfig(): (c: Config)
    ensures c.maxAllowedRoundTripMs == 15
    ensures c.desirableUpdateFreqMs == 600000
    ensures c.minServerSendTimeMs == 500
    ensures c.maxServerSendTimeMs == 120000
    ensures c.Ordered()
  {
    Config(DefaultMaxAllowedRoundTripMs, DefaultDesirableUpdateFreqMs,
           DefaultMinServerSendTimeMs, DefaultMaxServerSendTimeMs)
  }

  /** A zero argument falls back to a default; a nonzero one is kept.
      As written in the source, a zero `maxServerSendTimeMs` falls back to
      the round-trip default (15 ms), not to the two-minute send default. */
  function UpdateConfiguration(
    maxAllowedRoundTripMs: u32,
    desirableUpdateFreqMs: u32,
    minServerSendTimeMs: u32,
    maxServerSendTimeMs: u32): (c: Config)
    ensures maxAllowedRoundTripMs > 0 ==> c.maxAllowedRoundTripMs == maxAllowedRoundTripMs
    ensures maxAllowedRoundTripMs == 0 ==> c.maxAllowedRoundTripMs == 15
    ensures desirableUpdateFreqMs > 0 ==> c.desirableUpdateFreqMs == desirableUpdateFreqMs
    ensures desirableUpdateFreqMs == 0 ==> c.desirableUpdateFreqMs == 600000
    ensures minServerSendTimeMs > 0 ==> c.minServerSendTimeMs == minServerSendTimeMs
    ensures minServerSendTimeMs == 0 ==> c.minServerSendTimeMs == 500
    ensures maxServerSendTimeMs > 0 ==> c.maxServerSendTimeMs == maxServerSendTimeMs
    ensures maxServerSendTimeMs == 0 ==> c.maxServerSendTimeMs == 15
  {
    Config(
      if maxAllowedRoundTripMs > 0 then maxAllowedRoundTripMs else DefaultMaxAllowedRoundTripMs,
      if desirableUpdateFreqMs > 0 then desirableUpdateFreqMs else DefaultDesirableUpdateFreqMs,
      if minServerSendTimeMs > 0 then minServerSendTimeMs else DefaultMinServerSendTimeMs,
      if maxServerSendTimeMs > 0 then maxServerSendTimeMs else DefaultMaxAllowedRoundTripMs)
  }

  /** Feeding a configuration back in changes nothing: every stored value is
      nonzero, so no default is substituted the second time. */
  lemma UpdateConfigurationFixpoint(c: Config)
    ensures UpdateConfiguration(c.maxAllowedRoundTripMs, c.desirableUpdateFreqMs,
                                c.minServerSendTimeMs, c.maxServerSendTimeMs) == c
  {
  }

  /** All-zero arguments do not reproduce the defaults: the send-interval
      bounds come out inverted (500 ms minimum above a 15 ms maximum). */
  lemma AllZeroArgumentsInvertSendBounds()
    ensures UpdateConfiguration(0, 0, 0, 0) != DefaultConfig()
    ensures !UpdateConfiguration(0, 0, 0, 0).Ordered()
  {
  }
}

=== FILE: controller.dfy ===
/** The adaptive controller of `updateLimits`: from how long ago the clock was
    last set and how clean that sample was, it derives the next interval
    between requests and the largest round trip still accepted.
    The source computes in single-precision floats; here the factors are
    exact reals and each `(uint32_t)` cast of a nonnegative value is `.Floor`. */
module Controller {
  import opened Ints
  import opened Config

  datatype Limits = Limits(timeBetweenSendsMs: u32, limitRoundtripForUpdate: u32)

  function MaxReal(a: real, b: real): real {
    if a >= b then a else b
  }

  function MinReal(a: real, b: real): real {
    if a <= b then a else b
  }

  /** The shape both quality signals share: `max(0, 1 - value / scale)`.
      It is 1 for a zero value and falls linearly to 0 at the scale. The
      recency signal is the time since the last update over the desirable
      update period; the round-trip signal is the last round trip over the
      largest allowed round trip. */
  function RelQuality(value: u32, scale: PosU32): (r: real)
    ensures 0.0 <= r <= 1.0
    ensures r == 0.0 <==> value >= scale
    ensures r == 1.0 <==> value == 0
  {
    RatioReachesOne(value as real, scale as real);
    MaxReal(0.0, 1.0 - value as real / scale as real)
  }

  lemma RatioReachesOne(x: real, d: real)
    requires d > 0.0
    ensures x / d >= 1.0 <==> x >= d
  {
    assert (x / d) * d == x;
    if x / d >= 1.0 {
      assert (x / d) * d >= 1.0 * d;
    }
  }

  /** Multiplying the two qualities makes either poor signal dominate. */
  function CombinedFactor(relTime: real, relRtt: real): (c: real)
    requires 0.0 <= relTime <= 1.0 && 0.0 <= relRtt <= 1.0
    ensures 0.0 <= c <= 1.0
    ensures c == 0.0 <==> relTime == 0.0 || relRtt == 0.0
    ensures c == 1.0 <==> relTime == 1.0 && relRtt == 1.0
    ensures c <= relTime && c <= relRtt
  {
    CappedProductIsProduct(relTime, relRtt);
    MinReal(1.0, relTime * relRtt)
  }

  /** Within [0,1] the cap of `CombinedFactor` never bites, so the capped
      product inherits the bounds of the plain product. */
  lemma CappedProductIsProduct(a: real, b: real)
    requires 0.0 <= a <= 1.0 && 0.0 <= b <= 1.0
    ensures 0.0 <= MinReal(1.0, a * b) <= 1.0
    ensures MinReal(1.0, a * b) == 0.0 <==> a == 0.0 || b == 0.0
    ensures MinReal(1.0, a * b) == 1.0 <==> a == 1.0 && b == 1.0
    ensures MinReal(1.0, a * b) <= a && MinReal(1.0, a * b) <= b
  {
    ProductBounds(a, b, a * b);
  }

  /** The product `p` of two factors in [0,1] is at most either factor; it
      vanishes iff one factor does and is 1 iff both are. */
  lemma ProductBounds(a: real, b: real, p: real)
    requires 0.0 <= a <= 1.0 && 0.0 <= b <= 1.0 && p == a * b
    ensures 0.0 <= p && p <= a && p <= b
    ensures p == 0.0 <==> a == 0.0 || b == 0.0
    ensures p == 1.0 <==> a == 1.0 && b == 1.0
  {
    MulNonneg(a, b);
    MulNonneg(a, 1.0 - b);
    assert a * (1.0 - b) == a - p;
    MulNonneg(b, 1.0 - a);
    assert b * (1.0 - a) == b - p;
    if p == 1.0 {
      assert a == 1.0 && b == 1.0;
    }
    if p == 0.0 && a != 0.0 {
      assert b == p / a;
    }
  }

  /** `(uint32_t)(x * c)` for a nonnegative `x` and a factor in [0,1]. */
  function ScaledFloor(x: u32, c: real): (r: u32)
    requires 0.0 <= c <= 1.0
    ensures r <= x
    ensures c == 0.0 ==> r == 0
    ensures c == 1.0 ==> r == x
  {
    FloorScaleWithin(x, c);
    (x as real * c).Floor
  }

  lemma FloorScaleWithin(x: int, c: real)
    requires 0 <= x && 0.0 <= c <= 1.0
    ensures 0 <= (x as real * c).Floor <= x
    ensures c == 0.0 ==> (x as real * c).Floor == 0
    ensures c == 1.0 ==> (x as real * c).Floor == x
  {
    ScaleWithin(x as real, c);
  }

  lemma ScaleWithin(x: real, c: real)
    requires 0.0 <= x && 0.0 <= c <= 1.0
    ensures 0.0 <= x * c <= x
  {
    MulNonneg(x, c);
    ScaleLe(x, c, 1.0);
  }

  /** The two outputs for a given combined factor, with the source's 32-bit
      arithmetic: the difference of the send bounds and the sum that uses it
      both wrap modulo 2^32. */
  function LimitsForFactor(cfg: Config, c: real): (l: Limits)
    requires 0.0 <= c <= 1.0
    ensures c == 0.0 ==> l == Limits(cfg.minServerSendTimeMs, cfg.maxAllowedRoundTripMs)
    ensures c == 1.0 ==> l == Limits(cfg.maxServerSendTimeMs, 0)
    ensures cfg.Ordered() ==>
      cfg.minServerSendTimeMs <= l.timeBetweenSendsMs <= cfg.maxServerSendTimeMs
    ensures l.limitRoundtripForUpdate <= cfg.maxAllowedRoundTripMs
  {
    var diffBetweenLimits := Sub32(cfg.maxServerSendTimeMs, cfg.minServerSendTimeMs);
    var interval := (cfg.minServerSendTimeMs + ScaledFloor(diffBetweenLimits, c)) % TWO32;
    var limit := Sub32(cfg.maxAllowedRoundTripMs, ScaledFloor(cfg.maxAllowedRoundTripMs, c));
    Limits(interval, limit)
  }

  /** `updateLimits`: before the first accepted sample both outputs are pinned
      to their most eager setting; afterwards they follow the combined factor. */
  function UpdateLimits(cfg: Config, isTimeValid: bool, lastClockUpdateTime: u32,
                        lastRoundTripMs: u32, currMillis: u32): (l: Limits)
    ensures !isTimeValid ==>
      l == Limits(cfg.minServerSendTimeMs, cfg.maxAllowedRoundTripMs)
    ensures cfg.Ordered() ==>
      cfg.minServerSendTimeMs <= l.timeBetweenSendsMs <= cfg.maxServerSendTimeMs
    ensures l.limitRoundtripForUpdate <= cfg.maxAllowedRoundTripMs
  {
    if !isTimeValid then
      Limits(cfg.minServerSendTimeMs, cfg.maxAllowedRoundTripMs)
    else
      LimitsForFactor(cfg, Factor(cfg, lastClockUpdateTime, lastRoundTripMs, currMillis))
  }

  /** The combined factor of a valid clock at local time `currMillis`. */
  function Factor(cfg: Config, lastClockUpdateTime: u32, lastRoundTripMs: u32,
                  currMillis: u32): (c: real)
    ensures 0.0 <= c <= 1.0
  {
    var timeSinceLastUpdate := Sub32(currMillis, lastClockUpdateTime);
    CombinedFactor(RelQuality(timeSinceLastUpdate, cfg.desirableUpdateFreqMs),
                   RelQuality(lastRoundTripMs, cfg.maxAllowedRoundTripMs))
  }

  /** A stale clock or a poor last round trip forces the eager setting:
      shortest interval and the most tolerant round-trip limit. */
  lemma StaleOrSlowForcesEagerLimits(cfg: Config, lastClockUpdateTime: u32,
                                     lastRoundTripMs: u32, currMillis: u32)
    requires Sub32(currMillis, lastClockUpdateTime) >= cfg.desirableUpdateFreqMs
          || lastRoundTripMs >= cfg.maxAllowedRoundTripMs
    ensures UpdateLimits(cfg, true, lastClockUpdateTime, lastRoundTripMs, currMillis)
         == Limits(cfg.minServerSendTimeMs, cfg.maxAllowedRoundTripMs)
  {
    assert Factor(cfg, lastClockUpdateTime, lastRoundTripMs, currMillis) == 0.0;
  }

  /** Right after an instant round trip the controller relaxes completely:
      longest interval, and only a zero round trip would be accepted. */
  lemma FreshAndInstantRelaxesLimits(cfg: Config, t: u32)
    ensures UpdateLimits(cfg, true, t, 0, t)
         == Limits(cfg.maxServerSendTimeMs, 0)
  {
    assert Factor(cfg, t, 0, t) == 1.0;
  }

  /** A larger combined factor never shortens the interval nor widens the
      round-trip limit (for ordered send bounds). */
  lemma LimitsForFactorMonotone(cfg: Config, c1: real, c2: real)
    requires 0.0 <= c1 <= c2 <= 1.0
    requires cfg.Ordered()
    ensures LimitsForFactor(cfg, c1).timeBetweenSendsMs
         <= LimitsForFactor(cfg, c2).timeBetweenSendsMs
    ensures LimitsForFactor(cfg, c1).limitRoundtripForUpdate
         >= LimitsForFactor(cfg, c2).limitRoundtripForUpdate
  {
    var d := Sub32(cfg.maxServerSendTimeMs, cfg.minServerSendTimeMs);
    var m := cfg.maxAllowedRoundTripMs;
    ScaleMonotone(d, c1, c2);
    ScaleMonotone(m, c1, c2);
    IntervalIsOffsetScale(cfg, c1);
    IntervalIsOffsetScale(cfg, c2);
  }

  /** With ordered bounds the 32-bit sum does not wrap. */
  lemma IntervalIsOffsetScale(cfg: Config, c: real)
    requires 0.0 <= c <= 1.0
    requires cfg.Ordered()
    ensures var d := cfg.maxServerSendTimeMs - cfg.minServerSendTimeMs;
            && LimitsForFactor(cfg, c).timeBetweenSendsMs
               == cfg.minServerSendTimeMs + ScaledFloor(d, c)
            && LimitsForFactor(cfg, c).limitRoundtripForUpdate
               == cfg.maxAllowedRoundTripMs - ScaledFloor(cfg.maxAllowedRoundTripMs, c)
  {
    var d := cfg.maxServerSendTimeMs - cfg.minServerSendTimeMs;
    assert Sub32(cfg.maxServerSendTimeMs, cfg.minServerSendTimeMs) == d;
    var f := ScaledFloor(d, c);
    assert cfg.minServerSendTimeMs + f < TWO32;
  }

  lemma ScaleMonotone(x: u32, c1: real, c2: real)
    requires 0.0 <= c1 <= c2 <= 1.0
    ensures ScaledFloor(x, c1) <= ScaledFloor(x, c2)
  {
    FloorScaleMonotone(x, c1, c2);
  }

  lemma FloorScaleMonotone(x: int, c1: real, c2: real)
    requires 0 <= x && c1 <= c2
    ensures (x as real * c1).Floor <= (x as real * c2).Floor
  {
    ScaleLe(x as real, c1, c2);
  }

  lemma MulNonneg(a: real, b: real)
    requires 0.0 <= a && 0.0 <= b
    ensures 0.0 <= a * b
  {
  }

  lemma ScaleLe(x: real, c1: real, c2: real)
    requires 0.0 <= x && c1 <= c2
    ensures x * c1 <= x * c2
  {
    MulNonneg(x, c2 - c1);
    assert x * c2 == x * c1 + x * (c2 - c1);
  }

  /** The more time has passed since the last update (same last round trip),
      the sooner the next request and the more tolerant the limit. */
  lemma StalenessNeverRelaxes(cfg: Config, lastClockUpdateTime: u32,
                              lastRoundTripMs: u32, now1: u32, now2: u32)
    requires cfg.Ordered()
    requires Sub32(now1, lastClockUpdateTime) <= Sub32(now2, lastClockUpdateTime)
    ensures UpdateLimits(cfg, true, lastClockUpdateTime, lastRoundTripMs, now2).timeBetweenSendsMs
         <= UpdateLimits(cfg, true, lastClockUpdateTime, lastRoundTripMs, now1).timeBetweenSendsMs
    ensures UpdateLimits(cfg, true, lastClockUpdateTime, lastRoundTripMs, now2).limitRoundtripForUpdate
         >= UpdateLimits(cfg, true, lastClockUpdateTime, lastRoundTripMs, now1).limitRoundtripForUpdate
  {
    var f := cfg.desirableUpdateFreqMs;
    var t1 := Sub32(now1, lastClockUpdateTime);
    var t2 := Sub32(now2, lastClockUpdateTime);
    var rr := RelQuality(lastRoundTripMs, cfg.maxAllowedRoundTripMs);
    var a1 := RelQuality(t1, f);
    var a2 := RelQuality(t2, f);
    RelQualityMonotone(t1, t2, f);
    CombinedMonotone(a2, a1, rr);
    LimitsForFactorMonotone(cfg, CombinedFactor(a2, rr), CombinedFactor(a1, rr));
  }

  /** A larger value never gives a better quality. */
  lemma RelQualityMonotone(t1: u32, t2: u32, f: PosU32)
    requires t1 <= t2
    ensures RelQuality(t2, f) <= RelQuality(t1, f)
  {
    DivMonotone(t1 as real, t2 as real, f as real);
  }

  lemma MulMonotone(x: real, y: real, b: real)
    requires 0.0 <= x <= y && 0.0 <= b
    ensures x * b <= y * b
  {
    ScaleLe(b, x, y);
    assert b * x == x * b && b * y == y * b;
  }

  lemma CombinedMonotone(a1: real, a2: real, b: real)
    requires 0.0 <= a1 <= a2 <= 1.0 && 0.0 <= b <= 1.0
    ensures CombinedFactor(a1, b) <= CombinedFactor(a2, b)
  {
    CappedProductMonotone(a1, a2, b);
    assert CombinedFactor(a1, b) == MinReal(1.0, a1 * b);
    assert CombinedFactor(a2, b) == MinReal(1.0, a2 * b);
  }

  /** The nonlinear step of `CombinedMonotone`, kept apart from the factor's
      own contract. */
  lemma CappedProductMonotone(a1: real, a2: real, b: real)
    requires 0.0 <= a1 <= a2 && 0.0 <= b
    ensures MinReal(1.0, a1 * b) <= MinReal(1.0, a2 * b)
  {
    MulMonotone(a1, a2, b);
  }

  lemma DivMonotone(x: real, y: real, d: real)
    requires x <= y && d > 0.0
    ensures x / d <= y / d
  {
    assert (y - x) / d >= 0.0;
    assert y / d - x / d == (y - x) / d;
  }

  /** With inverted send bounds (as all-zero configuration arguments give)
      the wrapped difference pushes the interval far above the maximum: at
      factor one half the next request waits about 24.8 days. The exact value
      is that of real arithmetic; single-precision rounding moves it by a few
      milliseconds, which the lower bound leaves room for. */
  lemma InvertedBoundsOvershoot()
    ensures var cfg := UpdateConfiguration(0, 0, 0, 0);
            LimitsForFactor(cfg, 0.5).timeBetweenSendsMs > 100_000_000 * cfg.maxServerSendTimeMs
    ensures LimitsForFactor(UpdateConfiguration(0, 0, 0, 0), 0.5).timeBetweenSendsMs
         == 2147483905
  {
    var cfg := UpdateConfiguration(0, 0, 0, 0);
    assert Sub32(cfg.maxServerSendTimeMs, cfg.minServerSendTimeMs) == 4294966811;
    assert ScaledFloor(4294966811, 0.5) == 2147483405;
  }
}

=== FILE: driver.dfy ===
/** The cooperative driver: `loop` drains every queued response in arrival
    order, then sends a new request when the current interval has elapsed.
    `Run` composes receive-side posts, loop iterations and reconfigurations
    into one trace of the whole client. */
module Driver {
  import opened Ints
  import opened Wire
  import Controller
  import opened Engine
  import opened Inbox

  /** `consumeResponsesFromQueue`: every queued event through
      `HandleResponse`, oldest first. */
  function Drain(s: SyncState, q: seq<ResponseEvent>): (s': SyncState)
    ensures s'.config == s.config && s'.lastTspSendTime == s.lastTspSendTime
    ensures s.isTimeValid ==> s'.isTimeValid
    ensures s.config.Ordered() && s.LimitsInBounds() ==> s'.LimitsInBounds()
    ensures (forall i :: 0 <= i < |q| ==> q[i].responseCookie != s.lastTspReqCookie) ==> s' == s
    decreases |q|
  {
    if |q| == 0 then s else Drain(HandleResponse(s, q[0]), q[1..])
  }

  /** When no event after the first match carries cookie 0, only the first
      matching event of a batch has any effect: it consumes the cookie and
      every later event is ignored. */
  lemma {:induction false} DrainTakesFirstMatchOnly(s: SyncState, q: seq<ResponseEvent>, k: nat)
    requires k < |q|
    requires q[k].responseCookie == s.lastTspReqCookie
    requires forall j :: 0 <= j < k ==> q[j].responseCookie != s.lastTspReqCookie
    requires forall j :: k < j < |q| ==> q[j].responseCookie != 0
    ensures Drain(s, q) == HandleResponse(s, q[k])
    decreases k
  {
    if k == 0 {
      var s1 := HandleResponse(s, q[0]);
      assert s1.lastTspReqCookie == 0;
      assert forall i :: 0 <= i < |q[1..]| ==> q[1..][i].responseCookie != s1.lastTspReqCookie by {
        forall i | 0 <= i < |q[1..]|
          ensures q[1..][i].responseCookie != s1.lastTspReqCookie
        {
          assert q[1..][i] == q[i + 1];
        }
      }
    } else {
      assert HandleResponse(s, q[0]) == s;
      DrainTakesFirstMatchOnly(s, q[1..], k - 1);
    }
  }

  datatype LoopResult = LoopResult(state: SyncState, sent: Option<seq<u8>>)

  /** `loop`: drain, then read the clock as `now` and send when
      `now - lastSendTime > interval` in 32-bit arithmetic. The send reads
      the clock again, as `sendTime`, to stamp the send time and cookie;
      the limits are then recomputed at the earlier reading `now`. */
  function Loop(s: SyncState, inbox: seq<ResponseEvent>, now: u32, sendTime: u32): (r: LoopResult)
    ensures var d := Drain(s, inbox);
            r.sent.Some? <==> Sub32(now, s.lastTspSendTime) > d.timeBetweenSendsMs
    ensures r.sent.None? ==> r.state == Drain(s, inbox)
    ensures r.sent.Some? ==>
      var d := Drain(s, inbox);
      var l := Controller.UpdateLimits(d.config, d.isTimeValid, d.lastClockUpdateTime,
                                       d.lastRoundTripTimeMs, now);
      && r.sent.value == EncodeRequest(sendTime)
      && r.state == d.(lastTspSendTime := sendTime, lastTspReqCookie := sendTime,
                       timeBetweenSendsMs := l.timeBetweenSendsMs,
                       limitRoundtripForUpdate := l.limitRoundtripForUpdate)
    ensures r.state.config == s.config
    ensures s.isTimeValid ==> r.state.isTimeValid
    ensures s.config.Ordered() && s.LimitsInBounds() ==> r.state.LimitsInBounds()
    ensures r.sent.Some? && s.config.Ordered() ==> r.state.LimitsInBounds()
  {
    var d := Drain(s, inbox);
    if Sub32(now, d.lastTspSendTime) > d.timeBetweenSendsMs then
      var x := SendTspPacket(d, sendTime);
      LoopResult(Engine.UpdateLimits(x.state, now), Some(x.packet))
    else
      LoopResult(d, None)
  }

  /** Whole client: the consumer state and the queue the receive side fills. */
  datatype Client = Client(sync: SyncState, inbox: Queue)

  datatype Event =
    | Receive(packet: seq<u8>, recvTime: u32)
    | Tick(now: u32, sendTime: u32)
    | Reconfigure(maxAllowedRoundTripMs: u32, desirableUpdateFreqMs: u32,
                  minServerSendTimeMs: u32, maxServerSendTimeMs: u32)

  function NewClient(): Client {
    Client(NewTimeSync(), [])
  }

  /** One event: a datagram only ever reaches the queue; a tick runs `loop`
      and leaves the queue empty; a reconfiguration replaces the settings. */
  function Step(c: Client, ev: Event): (c': Client)
    ensures ev.Receive? ==> c'.sync == c.sync
    ensures ev.Receive? ==> c'.inbox == OnPacket(c.inbox, ev.packet, ev.recvTime)
    ensures ev.Tick? ==> c'.inbox == [] && c'.sync == Loop(c.sync, c.inbox, ev.now, ev.sendTime).state
    ensures ev.Reconfigure? ==> c'.inbox == c.inbox && c'.sync.isTimeValid == c.sync.isTimeValid
    ensures ev.Reconfigure? ==>
      c'.sync == Configure(c.sync, ev.maxAllowedRoundTripMs, ev.desirableUpdateFreqMs,
                           ev.minServerSendTimeMs, ev.maxServerSendTimeMs)
    ensures c.sync.isTimeValid ==> c'.sync.isTimeValid
  {
    match ev
    case Receive(packet, recvTime) =>
      Client(c.sync, OnPacket(c.inbox, packet, recvTime))
    case Tick(now, sendTime) =>
      Client(Loop(c.sync, c.inbox, now, sendTime).state, [])
    case Reconfigure(a, b, m, x) =>
      Client(Configure(c.sync, a, b, m, x), c.inbox)
  }

  /** A trace of events, in order. Once the clock is valid it stays valid:
      no event ever invalidates it. */
  function Run(c: Client, evs: seq<Event>): (c': Client)
    ensures c.sync.isTimeValid ==> c'.sync.isTimeValid
    decreases |evs|
  {
    if |evs| == 0 then c else Run(Step(c, evs[0]), evs[1..])
  }

  /** Until the first accepted sample the clock fields keep their initial
      values, so the offset is meaningful only when the clock is valid. */
  predicate UnsyncedAtRest(s: SyncState) {
    !s.isTimeValid ==>
      s.espStartTimeMs == 0 && s.lastClockUpdateTime == 0 && s.lastRoundTripTimeMs == 0
  }

  lemma {:induction false} DrainKeepsUnsyncedAtRest(s: SyncState, q: seq<ResponseEvent>)
    requires UnsyncedAtRest(s)
    ensures UnsyncedAtRest(Drain(s, q))
    decreases |q|
  {
    if |q| > 0 {
      DrainKeepsUnsyncedAtRest(HandleResponse(s, q[0]), q[1..]);
    }
  }

  lemma {:induction false} RunKeepsUnsyncedAtRest(c: Client, evs: seq<Event>)
    requires UnsyncedAtRest(c.sync)
    ensures UnsyncedAtRest(Run(c, evs).sync)
    decreases |evs|
  {
    if |evs| > 0 {
      if evs[0].Tick? {
        DrainKeepsUnsyncedAtRest(c.sync, c.inbox);
      }
      RunKeepsUnsyncedAtRest(Step(c, evs[0]), evs[1..]);
    }
  }

  /** Every reachable client whose clock is not yet valid still reports
      offset 0. */
  lemma OffsetZeroUntilSynced(evs: seq<Event>)
    ensures var c := Run(NewClient(), evs);
            !IsTimeValid(c.sync) ==> GetEspStartTimeMs(c.sync) == 0
  {
    RunKeepsUnsyncedAtRest(NewClient(), evs);
  }

  /** Datagrams that fail validation never change anything observable. */
  lemma ForeignDatagramIgnored(c: Client, packet: seq<u8>, recvTime: u32)
    requires !IsTspResponse(packet)
    ensures Step(c, Receive(packet, recvTime)) == c
  {
  }
}

=== FILE: engine.dfy ===
/** The consumer-side state of the time-sync client and its transitions:
    matching a response to the outstanding request, the round-trip check,
    the epoch-offset estimate, the send decision of `loop`, and the
    read-only accessors. */
module Engine {
  import opened Ints
  import opened Bytes
  import opened Config
  import opened Controller
  import opened Wire

  datatype SyncState = SyncState(
    config: Config,
    limitRoundtripForUpdate: u32,
    timeBetweenSendsMs: u32,
    /** local clock value at the last request */
    lastTspSendTime: u32,
    /** cookie of the outstanding request; 0 once a response consumed it */
    lastTspReqCookie: u64,
    /** local clock value of the last accepted update */
    lastClockUpdateTime: u32,
    lastRoundTripTimeMs: u32,
    isTimeValid: bool,
    /** epoch milliseconds at which the local clock read zero */
    espStartTimeMs: i64)
  {
    /** The controller's outputs lie inside the configured bounds. */
    predicate LimitsInBounds() {
      && config.minServerSendTimeMs <= timeBetweenSendsMs <= config.maxServerSendTimeMs
      && limitRoundtripForUpdate <= config.maxAllowedRoundTripMs
    }
  }

  /** A freshly constructed client. */
  function NewTimeSync(): (s: SyncState)
    ensures s.config == DefaultConfig()
    ensures s.limitRoundtripForUpdate == s.config.maxAllowedRoundTripMs
    ensures s.timeBetweenSendsMs == s.config.minServerSendTimeMs
    ensures s.lastTspSendTime == 0 && s.lastTspReqCookie == 0
    ensures s.lastClockUpdateTime == 0 && s.lastRoundTripTimeMs == 0
    ensures !s.isTimeValid && s.espStartTimeMs == 0
    ensures s.LimitsInBounds()
  {
    var cfg := DefaultConfig();
    SyncState(cfg, cfg.maxAllowedRoundTripMs, cfg.minServerSendTimeMs, 0, 0, 0, 0, false, 0)
  }

  /** `updateLimits` applied to the state: only the two controller outputs change. */
  function UpdateLimits(s: SyncState, currMillis: u32): (s': SyncState)
    ensures s'.(timeBetweenSendsMs := s.timeBetweenSendsMs,
                limitRoundtripForUpdate := s.limitRoundtripForUpdate) == s
    ensures !s.isTimeValid ==>
      s'.timeBetweenSendsMs == s.config.minServerSendTimeMs
      && s'.limitRoundtripForUpdate == s.config.maxAllowedRoundTripMs
    ensures Limits(s'.timeBetweenSendsMs, s'.limitRoundtripForUpdate)
         == Controller.UpdateLimits(s.config, s.isTimeValid, s.lastClockUpdateTime,
                                    s.lastRoundTripTimeMs, currMillis)
    ensures s.config.Ordered() ==> s'.LimitsInBounds()
  {
    var l := Controller.UpdateLimits(s.config, s.isTimeValid, s.lastClockUpdateTime,
                                     s.lastRoundTripTimeMs, currMillis);
    s.(timeBetweenSendsMs := l.timeBetweenSendsMs,
       limitRoundtripForUpdate := l.limitRoundtripForUpdate)
  }

  /** Local clock value at which the server is assumed to have stamped its
      epoch: half the round trip before the response arrived (32-bit). */
  function ServerStampLocalTime(recvTime: u32, roundTrip: u32): (t: u32)
    ensures Sub32(recvTime, t) == roundTrip / 2
  {
    Sub32(recvTime, roundTrip / 2)
  }

  /** The new start-time offset: the server's epoch minus the local stamp time,
      a 64-bit unsigned subtraction reinterpreted as `int64_t`. Adding the
      stamp time back always gives the server's epoch modulo 2^64. It gives
      the epoch itself exactly when the true difference fits in `int64_t`,
      which includes an epoch below the stamp time. */
  function EstimateStartTime(epochTimeFromServer: u64, stamp: u32): (offset: i64)
    ensures (offset + stamp) % TWO64 == epochTimeFromServer
    ensures offset + stamp == epochTimeFromServer <==> epochTimeFromServer < stamp + TWO63
  {
    ToSigned64(Sub64(epochTimeFromServer, stamp))
  }

  /** `handleTspResponseData`. */
  function HandleResponse(s: SyncState, e: ResponseEvent): (s': SyncState)
    // a response for another request leaves every field untouched
    ensures e.responseCookie != s.lastTspReqCookie ==> s' == s
    // a matching response is consumed whatever the round trip
    ensures e.responseCookie == s.lastTspReqCookie ==> s'.lastTspReqCookie == 0
    // a too-slow round trip changes nothing but the cookie
    ensures e.responseCookie == s.lastTspReqCookie
         && Sub32(e.espPacketRecvTime, s.lastTspSendTime) >= s.limitRoundtripForUpdate
         ==> s' == s.(lastTspReqCookie := 0)
    // an accepted sample sets the clock and recomputes the limits at the receive time
    ensures e.responseCookie == s.lastTspReqCookie
         && Sub32(e.espPacketRecvTime, s.lastTspSendTime) < s.limitRoundtripForUpdate
         ==> var rt := Sub32(e.espPacketRecvTime, s.lastTspSendTime);
             && s'.isTimeValid
             && s'.lastRoundTripTimeMs == rt
             && s'.lastClockUpdateTime == e.espPacketRecvTime
             && s'.espStartTimeMs
                == EstimateStartTime(e.epochTimeFromServer,
                                     ServerStampLocalTime(e.espPacketRecvTime, rt))
             && s'.config == s.config
             && s'.lastTspSendTime == s.lastTspSendTime
             && Limits(s'.timeBetweenSendsMs, s'.limitRoundtripForUpdate)
                == Controller.UpdateLimits(s.config, true, e.espPacketRecvTime, rt,
                                           e.espPacketRecvTime)
    ensures s.config.Ordered() && s.LimitsInBounds() ==> s'.LimitsInBounds()
    ensures s.isTimeValid ==> s'.isTimeValid
  {
    if e.responseCookie != s.lastTspReqCookie then
      s
    else
      var consumed := s.(lastTspReqCookie := 0);
      var roundTrip := Sub32(e.espPacketRecvTime, s.lastTspSendTime);
      if roundTrip >= s.limitRoundtripForUpdate then
        consumed
      else
        var stamp := ServerStampLocalTime(e.espPacketRecvTime, roundTrip);
        var updated := consumed.(
          lastClockUpdateTime := e.espPacketRecvTime,
          lastRoundTripTimeMs := roundTrip,
          isTimeValid := true,
          espStartTimeMs := EstimateStartTime(e.epochTimeFromServer, stamp));
        UpdateLimits(updated, updated.lastClockUpdateTime)
  }

  /** `sendTspPacket`: stamps the send time, reuses it as the cookie and
      yields the request datagram. A transport failure does not undo the
      stamping, so the state effect is the same whether the send succeeds. */
  datatype Sent = Sent(state: SyncState, packet: seq<u8>)

  function SendTspPacket(s: SyncState, now: u32): (r: Sent)
    ensures r.state == s.(lastTspSendTime := now, lastTspReqCookie := now)
    ensures |r.packet| == RequestPacketSize
    ensures r.packet == EncodeRequest(r.state.lastTspReqCookie)
    ensures LeDecode64(r.packet[8..16]) == r.state.lastTspReqCookie
  {
    Sent(s.(lastTspSendTime := now, lastTspReqCookie := now), EncodeRequest(now))
  }

  /** `updateConfiguration` on the client: only the configuration changes;
      the controller's current outputs are kept until they are recomputed. */
  function Configure(s: SyncState, maxAllowedRoundTripMs: u32, desirableUpdateFreqMs: u32,
                     minServerSendTimeMs: u32, maxServerSendTimeMs: u32): (s': SyncState)
    ensures s'.(config := s.config) == s
    ensures s'.config == UpdateConfiguration(maxAllowedRoundTripMs, desirableUpdateFreqMs,
                                             minServerSendTimeMs, maxServerSendTimeMs)
  {
    s.(config := UpdateConfiguration(maxAllowedRoundTripMs, desirableUpdateFreqMs,
                                     minServerSendTimeMs, maxServerSendTimeMs))
  }

  /** The state part of `setup`. `connected` stands for "the response queue
      was created and the socket connected": then the limits are recomputed
      at local time 0; if either step fails, `setup` returns early. */
  function Setup(s: SyncState, connected: bool): (s': SyncState)
    ensures !connected ==> s' == s
    ensures connected && !s.isTimeValid ==>
      s'.timeBetweenSendsMs == s.config.minServerSendTimeMs
      && s'.limitRoundtripForUpdate == s.config.maxAllowedRoundTripMs
    ensures s'.(timeBetweenSendsMs := s.timeBetweenSendsMs,
                limitRoundtripForUpdate := s.limitRoundtripForUpdate) == s
    ensures connected ==> s' == UpdateLimits(s, 0)
  {
    if connected then UpdateLimits(s, 0) else s
  }

  /** `isTimeValid()` */
  function IsTimeValid(s: SyncState): bool {
    s.isTimeValid
  }

  /** `getEspStartTimeMs()` */
  function GetEspStartTimeMs(s: SyncState): i64 {
    s.espStartTimeMs
  }

  /** `getCurrentEpochTimeMs(t)`: the offset plus the 32-bit local reading.
      Two readings within one 2^32 ms period of the counter are as far apart
      in epoch time as in local time; across a wrap of the counter the epoch
      time falls back by 2^32 ms (`ReadingsAcrossWrap`). */
  function GetCurrentEpochTimeMs(s: SyncState, currentEspMillis: u32): (r: int)
    ensures r - GetEspStartTimeMs(s) == currentEspMillis
  {
    s.espStartTimeMs + currentEspMillis
  }

  // ---------------------------------------------------------------------
  // Properties relating several operations

  /** A second delivery of an already-consumed nonzero cookie is ignored, so
      handling the same response twice is the same as handling it once. */
  lemma DuplicateResponseIgnored(s: SyncState, e: ResponseEvent)
    requires e.responseCookie != 0
    ensures HandleResponse(HandleResponse(s, e), e) == HandleResponse(s, e)
  {
  }

  /** The consumed marker 0 is itself a cookie value: a response carrying
      cookie 0 is matched even when no request is outstanding. Right after
      construction such a datagram, arriving within the round-trip limit of
      local time 0, sets the clock. */
  lemma ZeroCookieMatchesWhenIdle()
    ensures HandleResponse(NewTimeSync(), ResponseEvent(10, 0, 5000)).isTimeValid
  {
  }

  /** After an accepted response, the current epoch time at the estimated
      stamping reading is exactly the server's epoch value whenever that
      epoch fits in `int64_t`. This holds at the stamping reading itself even
      when the counter wrapped during the exchange; readings on the other
      side of the wrap are then 2^32 ms off (`StraddlingExchangeLagsAfterWrap`). */
  lemma AcceptedSampleAnchorsClock(s: SyncState, e: ResponseEvent)
    requires e.responseCookie == s.lastTspReqCookie
    requires Sub32(e.espPacketRecvTime, s.lastTspSendTime) < s.limitRoundtripForUpdate
    requires e.epochTimeFromServer < TWO63
    ensures var rt := Sub32(e.espPacketRecvTime, s.lastTspSendTime);
            GetCurrentEpochTimeMs(HandleResponse(s, e),
                                  ServerStampLocalTime(e.espPacketRecvTime, rt))
            == e.epochTimeFromServer
  {
  }

  /** The epoch time reported for reading `b` relative to reading `a`: the
      32-bit elapsed time when the counter did not wrap in between, and
      2^32 ms less when it did. */
  lemma ReadingsAcrossWrap(s: SyncState, a: u32, b: u32)
    ensures a <= b ==>
      GetCurrentEpochTimeMs(s, b) - GetCurrentEpochTimeMs(s, a) == Sub32(b, a)
    ensures b < a ==>
      GetCurrentEpochTimeMs(s, b) - GetCurrentEpochTimeMs(s, a) == Sub32(b, a) - TWO32
  {
  }

  /** An exchange that straddles a wrap of the counter: sent at 2^32 - 8 and
      received at 2 (a 10 ms round trip), it is accepted and anchors the
      clock at the stamping reading 2^32 - 3, but from the receive reading
      onwards, until the next accepted sample, the clock reports an epoch
      about 49.7 days behind. */
  lemma StraddlingExchangeLagsAfterWrap()
    ensures var s := NewTimeSync().(lastTspSendTime := TWO32 - 8,
                                     lastTspReqCookie := TWO32 - 8);
            var s' := HandleResponse(s, ResponseEvent(2, TWO32 - 8, 1_000_000_000_000));
            && s'.isTimeValid
            && s'.lastRoundTripTimeMs == 10
            && GetCurrentEpochTimeMs(s', TWO32 - 3) == 1_000_000_000_000
            && GetCurrentEpochTimeMs(s', 2) == 1_000_000_000_000 + 5 - TWO32
  {
    assert Sub32(2, TWO32 - 8) == 10;
    assert ServerStampLocalTime(2, 10) == TWO32 - 3;
  }

  /** Worked example: epoch 1000, sent at 80, received at 100
      gives a 20 ms round trip, stamp time 90, offset 910, and 1110 at 200. */
  lemma WorkedExample()
    ensures var s := NewTimeSync().(limitRoundtripForUpdate := 30,
                                     lastTspSendTime := 80, lastTspReqCookie := 80);
            var s' := HandleResponse(s, ResponseEvent(100, 80, 1000));
            && s'.lastRoundTripTimeMs == 20
            && GetEspStartTimeMs(s') == 910
            && GetCurrentEpochTimeMs(s', 200) == 1110
  {
    assert ServerStampLocalTime(100, 20) == 90;
    assert EstimateStartTime(1000, 90) == 910;
  }

  /** With the default 15 ms limit, the worked example's 20 ms round trip is
      rejected: the cookie is consumed and nothing else changes. */
  lemma SlowSampleOnlyConsumesCookie()
    ensures var s := NewTimeSync().(lastTspSendTime := 80, lastTspReqCookie := 80);
            HandleResponse(s, ResponseEvent(100, 80, 1000)) == s.(lastTspReqCookie := 0)
  {
  }

  /** A response that echoes the request just sent is matched; it is
      accepted exactly when it arrives within the current round-trip limit. */
  lemma EchoOfLatestRequestMatches(s: SyncState, now: u32, epoch: u64, recvTime: u32)
    ensures var sent := SendTspPacket(s, now);
            var e := DecodeResponse(sent.packet + LeEncode64(epoch), recvTime).value;
            var s' := HandleResponse(sent.state, e);
            && s'.lastTspReqCookie == 0
            && (s'.isTimeValid && s'.lastClockUpdateTime == recvTime
                <== Sub32(recvTime, now) < s.limitRoundtripForUpdate)
            && (s' == sent.state.(lastTspReqCookie := 0)
                <== Sub32(recvTime, now) >= s.limitRoundtripForUpdate)
  {
    var sent := SendTspPacket(s, now);
    EchoedRequestDecodes(now, epoch, [], recvTime);
    assert sent.packet + LeEncode64(epoch) + [] == sent.packet + LeEncode64(epoch);
  }
}

=== FILE: inbox.dfy ===
/** The hand-off from the network receive context to the consumer: the
    decoder runs on the receive side and posts events into a bounded queue
    of four entries without waiting; a full queue drops the new event. */
module Inbox {
  import opened Ints
  import opened Wire

  const QueueCapacity: nat := 4

  type Queue = q: seq<ResponseEvent> | |q| <= QueueCapacity

  /** A non-blocking post: appended when there is room, dropped otherwise. */
  function Enqueue(q: Queue, e: ResponseEvent): (q': Queue)
    ensures |q| < QueueCapacity ==> q' == q + [e]
    ensures |q| == QueueCapacity ==> q' == q
    ensures |q| <= |q'| && q'[..|q|] == q
  {
    if |q| < QueueCapacity then q + [e] else q
  }

  /** `handlePbufOnLwipContext`: a datagram that fails validation is ignored;
      otherwise its event, stamped with the receive time, is posted. The
      consumer's state is not an argument: this context cannot touch it. */
  function OnPacket(q: Queue, packet: seq<u8>, recvTime: u32): (q': Queue)
    ensures !IsTspResponse(packet) ==> q' == q
    ensures IsTspResponse(packet) && |q| < QueueCapacity ==>
      q' == q + [DecodeResponse(packet, recvTime).value]
    ensures |q| == QueueCapacity ==> q' == q
    ensures |q| <= |q'| && q'[..|q|] == q
  {
    match DecodeResponse(packet, recvTime)
    case None => q
    case Some(e) => Enqueue(q, e)
  }

  /** Posting events one by one, in order. */
  function EnqueueAll(q: Queue, es: seq<ResponseEvent>): (q': Queue)
    decreases |es|
  {
    if |es| == 0 then q else EnqueueAll(Enqueue(q, es[0]), es[1..])
  }

  function MinNat(a: nat, b: nat): nat {
    if a <= b then a else b
  }

  /** Under any burst the queue keeps the oldest events, in arrival order,
      up to its capacity; everything after that is dropped. */
  lemma {:induction false} EnqueueAllKeepsOldest(q: Queue, es: seq<ResponseEvent>)
    ensures EnqueueAll(q, es) == (q + es)[..MinNat(|q| + |es|, QueueCapacity)]
    decreases |es|
  {
    if |es| > 0 {
      var q1 := Enqueue(q, es[0]);
      EnqueueAllKeepsOldest(q1, es[1..]);
      if |q| < QueueCapacity {
        assert q1 == q + [es[0]];
        assert q1 + es[1..] == q + es;
        assert |q1| + |es[1..]| == |q| + |es|;
      } else {
        assert q1 == q;
        assert MinNat(|q1| + |es[1..]|, QueueCapacity) == QueueCapacity;
        assert MinNat(|q| + |es|, QueueCapacity) == QueueCapacity;
        assert (q + es)[..QueueCapacity] == q;
        assert (q1 + es[1..])[..QueueCapacity] == q;
      }
    }
  }
}

=== FILE: ints.dfy ===
/** Fixed-width machine integers of the ESP32 target, modelled as subsets of
    the unbounded `int`, together with the wrapping operations the engine
    relies on. `unsigned int` and `unsigned long` are both 32 bits wide there. */
module Ints {

  const TWO32: int := 0x1_0000_0000
  const TWO63: int := 0x8000_0000_0000_0000
  const TWO64: int := 0x1_0000_0000_0000_0000

  type u8 = x: int | 0 <= x < 0x100
  type u32 = x: int | 0 <= x < 0x1_0000_0000
  type u64 = x: int | 0 <= x < 0x1_0000_0000_0000_0000
  type i64 = x: int | -0x8000_0000_0000_0000 <= x < 0x8000_0000_0000_0000

  /** A 32-bit value that is not zero (in the model no configuration value is ever zero). */
  type PosU32 = x: int | 0 < x < 0x1_0000_0000 witness 1

  /** Unsigned 32-bit subtraction `a - b`: the unique 32-bit value that,
      added to `b` with wrap-around, gives back `a`. */
  function Sub32(a: u32, b: u32): (r: u32)
    ensures (b + r) % TWO32 == a
    ensures b <= a ==> r == a - b
    ensures a < b ==> r == a - b + TWO32
  {
    if b <= a then a - b else a - b + TWO32
  }

  /** Unsigned 64-bit subtraction `a - b`, wrapping modulo 2^64. */
  function Sub64(a: u64, b: u64): (r: u64)
    ensures (b + r) % TWO64 == a
    ensures b <= a ==> r == a - b
  {
    if b <= a then a - b else a - b + TWO64
  }

  /** Two's-complement reinterpretation of a 64-bit pattern as `int64_t`. */
  function ToSigned64(x: u64): (r: i64)
    ensures r % TWO64 == x
    ensures x < TWO63 ==> r == x
    ensures x >= TWO63 ==> r < 0
  {
    if x < TWO63 then x else x - TWO64
  }

  /** `Sub32` has exactly one solution: no other 32-bit value closes the gap. */
  lemma Sub32Unique(a: u32, b: u32, r: u32)
    requires (b + r) % TWO32 == a
    ensures r == Sub32(a, b)
  {
    if b + r >= TWO32 {
      assert a == b + r - TWO32;
    } else {
      assert a == b + r;
    }
  }

  /** Worked example: a receive time just after the counter
      wrapped still yields the short round trip. */
  lemma RoundTripAcrossWrap()
    ensures Sub32(5, 4294967290) == 11
  {
  }
}

=== FILE: wire.dfy ===
/** The minimal "TSP" wire format: the 16-byte request the client sends and
    the decoder that turns an inbound datagram into a response event. */
module Wire {
  import opened Ints
  import opened Bytes

  datatype Option<T> = None | Some(value: T)

  /** 'T', 'S', 'P' */
  const Magic: seq<u8> := [0x54, 0x53, 0x50]
  const ProtocolVersion: u8 := 1
  const RequestPacketSize: nat := 16
  const MinResponseSize: nat := 24

  /** What the receive context hands to the consumer: the local clock value at
      receipt, the echoed cookie and the server's epoch milliseconds. */
  datatype ResponseEvent = ResponseEvent(
    espPacketRecvTime: u32,
    responseCookie: u64,
    epochTimeFromServer: u64)

  /** The request datagram: magic, version 1, four zero bytes, then the cookie. */
  function EncodeRequest(cookie: u64): (r: seq<u8>)
    ensures |r| == RequestPacketSize
    ensures r[..3] == Magic
    ensures r[3] == ProtocolVersion
    ensures r[4..8] == [0, 0, 0, 0]
    ensures LeDecode64(r[8..16]) == cookie
  {
    var r := Magic + [ProtocolVersion] + [0, 0, 0, 0] + LeEncode64(cookie);
    assert r[8..16] == LeEncode64(cookie);
    r
  }

  /** A datagram the decoder accepts: long enough and carrying the magic tag. */
  predicate IsTspResponse(packet: seq<u8>) {
    |packet| >= MinResponseSize && packet[..3] == Magic
  }

  /** Validates an inbound datagram; `recvTime` is the local clock reading
      taken when it arrived. Bytes past the 24th are ignored. */
  function DecodeResponse(packet: seq<u8>, recvTime: u32): (r: Option<ResponseEvent>)
    ensures r.Some? <==> IsTspResponse(packet)
    ensures r.Some? ==> r.value.espPacketRecvTime == recvTime
    ensures r.Some? ==> LeEncode64(r.value.responseCookie) == packet[8..16]
    ensures r.Some? ==> LeEncode64(r.value.epochTimeFromServer) == packet[16..24]
  {
    if |packet| < MinResponseSize then
      None
    else if packet[0] != Magic[0] || packet[1] != Magic[1] || packet[2] != Magic[2] then
      None
    else
      Some(ResponseEvent(recvTime, LeDecode64(packet[8..16]), LeDecode64(packet[16..24])))
  }

  /** A server that echoes the request's 16 bytes and appends its epoch
      produces a response that decodes to the request's own cookie. */
  lemma EchoedRequestDecodes(cookie: u64, epoch: u64, trailer: seq<u8>, recvTime: u32)
    ensures DecodeResponse(EncodeRequest(cookie) + LeEncode64(epoch) + trailer, recvTime)
         == Some(ResponseEvent(recvTime, cookie, epoch))
  {
    var req := EncodeRequest(cookie);
    var p := req + LeEncode64(epoch) + trailer;
    assert p[..3] == req[..3];
    assert p[8..16] == req[8..16];
    assert p[16..24] == LeEncode64(epoch);
  }

  /** The decoder is exact on the fields it reads: two accepted datagrams
      decode to the same event only if their cookie and epoch bytes agree. */
  lemma DecodeInjectiveOnFields(p: seq<u8>, q: seq<u8>, t: u32)
    requires IsTspResponse(p) && IsTspResponse(q)
    requires DecodeResponse(p, t) == DecodeResponse(q, t)
    ensures p[8..24] == q[8..24]
  {
    assert p[8..24] == p[8..16] + p[16..24];
    assert q[8..24] == q[8..16] + q[16..24];
  }
}
